=== FILE: README.md ===
# Authorization and generic CRUD layer of jam-app's backend, in Dafny

This project models the cross-cutting layer that jam-app's GraphQL backend wraps around its resolvers:

- **Grant resolution.** `User.calculateRoles` and `Group.calculatePermissions` build an effective list. It is the stored list followed by every registry id flagged `default` that the list lacks. `hasRole`/`hasPermission` and the count-based `hasRoles`/`hasPermissions` query that list. Users and groups run the same code, so it is modelled once in `Grants` and used by `UserEntity` and `GroupEntity`.
- **The `Restricted` decorator** (`Gate`). It rejects a call that has no logged-in user, or whose user fails the decorator's own `hasAccess` check. Otherwise it passes the wrapped resolver's result through.
- **`GenerateDefault`** and the `List`/`Get`/`Create`/`Update`/`Delete` decorators built on it (`Synthesizer`). The original resolver runs first. A result that is neither `null` nor `undefined` wins. Otherwise the decorator builds the LIST find-options, or runs GET/CREATE/UPDATE/DELETE against the entity's table (`Storage`).
- **The `setupUUID` insert hook** installed by `PrimaryUUIDColumn` (`UuidHook`).

Everything is pure functions over sequences, maps and result datatypes. The grant registries (`Roles.json`, `Permissions`) are parameters: an ordered list of (id, default flag). So is the identifier generator: the `generated` string an insert would receive. The store is a value, a table of rows in storage order. Each operation returns the new table together with its result.

The store's own behaviour comes from the ORM, which is not part of this model, so it is stated here as an assumption:
- `findOne({where: {f: v}})` returns the first row whose field `f` equals `v`.
- `save()` replaces the row with the same `id` when there is one. Otherwise it inserts, first running the UUID hook for classes with a UUID primary key.
- An insert without an identifier, or with one already stored, is refused.
- `remove()` deletes the row.
- `cl.create(args[0])` builds an entity holding every own field of an object argument and nothing else; any other argument gives an entity with no fields.

Where the code departs from what its names suggest, the model follows the code:
- The effective grant list is a list, not a set. The stored part is kept as is, duplicates included.
- `Restricted`'s `hasAccess` reads the user's stored `roles`, not the resolved list, so default roles do not count (`Gate.GateIgnoresDefaultRoles`). In AND mode it is plain containment (`Gate.HasAccess`).
- `hasRoles`/`hasPermissions` in AND mode compare the number of matching (held, required) pairs with the required length. This is containment only when the held list has no duplicates (`Grants.AllModeIsContainment`). Two concrete lemmas show both ways it differs otherwise.
- LIST puts `paginated` and list-valued `search` clauses at the top level of the options object. Only a single-column `search` writes `where` (`Synthesizer.WhereOnlyFromSingleColumnSearch`). When two visited options write the same key, the later one's clause is the one kept (`Synthesizer.LaterOptionOverwrites`).
- A list-valued `search` tests its terms for truthiness, so `0` and `false` are skipped, not just empty values. A single-column `search` has no test at all.
- A wrapped resolver that returns `0`, `false` or `""` still short-circuits. Only `null` and `undefined` fall through to the default behaviour.

## Model

| member | source | states |
|---|---|---|
| Grants.DefaultIds | backend/src/db/entities/User.ts:29-30 | the ids the resolution loop may push are exactly the registry ids flagged default |
| Grants.Extend | backend/src/db/entities/User.ts:28-32 | the resolution loop keeps its input as a prefix, and nothing it appends was already in the list when pushed |
| Grants.ExtendOnlyDefaults | backend/src/db/entities/User.ts:29-31 | everything the loop appends is a default id |
| Grants.ExtendCoversDefaults | backend/src/db/entities/User.ts:29-31 | every default id ends up in the result |
| Grants.ExtendLength | backend/src/db/entities/User.ts:29-31 | the result is at most the input plus one entry per default id |
| Grants.Effective | backend/src/db/entities/User.ts:27-33 | the effective list starts with the stored list, and a string is in it iff it is stored or a default id |
| Grants.HeldCount | backend/src/helpers/defaultAPIGenerators.ts:31-38 | counting the required entries a user holds never exceeds the required length, and reaches it iff every required entry is held |
| Grants.MatchGrants | backend/src/db/entities/User.ts:40-49 | the nested loop with its early return: AND mode is true iff the number of matching (held, required) pairs, `Grants.PairCount`, equals the required length; OR mode is true iff some required entry is held |
| Grants.ExtendSaturated | backend/src/db/entities/User.ts:29-31 | once every default id is present, the loop pushes nothing |
| Grants.EffectiveIdempotent | backend/src/db/entities/User.ts:27-33 | resolving an already resolved list returns it unchanged |
| Grants.UniqueTail | backend/src/db/entities/User.ts:29 | the registry's keys stay distinct in its tail, and the head's key is not among the tail's default ids |
| Grants.ExtendIsMissingDefaults | backend/src/db/entities/User.ts:29-31 | with distinct registry keys, the loop appends exactly the default ids missing from the input, in registry order |
| Grants.EffectiveOfNothing | backend/src/db/entities/User.ts:28-32 | an empty stored list resolves to exactly the default ids |
| Grants.EffectiveNoDuplicates | backend/src/db/entities/User.ts:30 | resolution adds no duplicate to a duplicate-free list |
| Grants.PairCountDistinct | backend/src/db/entities/User.ts:40-49 | on a duplicate-free held list, the pair count equals the number of required entries held |
| Grants.AllModeIsContainment | backend/src/db/entities/User.ts:40-49 | on a duplicate-free held list, AND mode holds iff every required entry is held |
| Grants.RepeatedHeldRejectsHeldGrant | backend/src/db/entities/User.ts:40-49 | held `["a","a"]` and required `["a"]`: the AND count is 2, not 1, so the check fails although "a" is held |
| Grants.RepeatedHeldAdmitsMissingGrant | backend/src/db/entities/User.ts:40-49 | held `["a","a"]` and required `["a","b"]`: the AND count is 2, so the check passes although "b" is not held |
| UserEntity.CalculateRoles | backend/src/db/entities/User.ts:27-33 | the stored roles are an unchanged prefix of the result; every appended role is a default not already present and appears once; every default role is in the result; after the call the user's roles are the returned list and nothing else changed |
| UserEntity.CalculateRolesIdempotent | backend/src/db/entities/User.ts:27-33 | a second call returns the same list and leaves the user as the first call left it |
| UserEntity.CalculateRolesOfNewUser | backend/src/db/entities/User.ts:28-32 | a user with no stored roles resolves to exactly the default roles |
| UserEntity.HasRole | backend/src/db/entities/User.ts:35-37 | true iff the role is stored on the user or is a default role; in particular every default role is held |
| UserEntity.HasRoles | backend/src/db/entities/User.ts:39-50 | OR mode: some required role is stored or default, false for an empty list. AND mode: the pair count equals the required length, true for an empty list, and equal to containment when the stored roles are duplicate-free |
| GroupEntity.CalculatePermissions | backend/src/db/entities/core/Group.ts:15-21 | the stored permissions are an unchanged prefix; every appended permission is a default not already present and appears once; every default is in the result; the group's permissions become the returned list |
| GroupEntity.CalculatePermissionsAppendsMissing | backend/src/db/entities/core/Group.ts:17-19 | the result is the stored permissions followed by the missing default permissions, in registry order |
| GroupEntity.CalculatePermissionsIdempotent | backend/src/db/entities/core/Group.ts:15-21 | a second call returns the same list and leaves the group unchanged |
| GroupEntity.CalculatePermissionsAsWritten | backend/src/db/entities/core/Group.ts:15-21 | as written, the loop reads the undeclared `Permissions`: it throws a ReferenceError iff no global of that name exists, and otherwise resolves against it |
| GroupEntity.AsWrittenPermissionsThrow | backend/src/db/entities/core/Group.ts:1-2 | without a global `Permissions`, every group's `calculatePermissions` throws; with one, it is the corrected resolution |
| GroupEntity.HasPermission | backend/src/db/entities/core/Group.ts:23-25 | true iff the permission is stored on the group or is a default permission |
| GroupEntity.HasPermissions | backend/src/db/entities/core/Group.ts:27-38 | OR mode: some required permission is stored or default, false for an empty list. AND mode: the pair count equals the required length, true for an empty list, and equal to containment when the stored permissions are duplicate-free |
| Gate.AccessFrom | backend/src/helpers/defaultAPIGenerators.ts:31-39 | the `hasAccess` loop with its early return: AND mode holds iff every required role is among the user's stored roles; OR mode holds iff some required role is |
| Gate.HasAccess | backend/src/helpers/defaultAPIGenerators.ts:30-40 | AND mode is containment of the required roles in the stored roles, true for none required; OR mode is overlap, false for none required |
| Gate.Restricted | backend/src/helpers/defaultAPIGenerators.ts:43-47 | no user: "must be logged in" error; a user failing `hasAccess`: "no permission" error; otherwise the wrapped method's result, unchanged. Success in AND mode iff the user stores every required role, in OR mode iff the user stores some required role |
| Gate.RejectionSkipsWrapped | backend/src/helpers/defaultAPIGenerators.ts:45-47 | a rejected call gives the same outcome whatever method is wrapped, so the method is never run |
| Gate.DefaultsRequireLoginOnly | backend/src/helpers/defaultAPIGenerators.ts:29-38 | with its default arguments the decorator admits exactly the logged-in callers |
| Gate.ReadOnlyUser | backend/src/helpers/defaultAPIGenerators.ts:30-47 | a user holding only "read" is refused `["read","write"]` in AND mode and admitted in OR mode |
| Gate.GateIgnoresDefaultRoles | backend/src/helpers/defaultAPIGenerators.ts:33 | a default role the user does not store counts for `hasRole` but not for the gate |
| UuidHook.SetupUUID | backend/src/helpers/defaultAPIGenerators.ts:70-72 | a truthy identifier is left alone; a falsy one becomes the generated identifier; no other field changes |
| UuidHook.SetupUUIDIdempotent | backend/src/helpers/defaultAPIGenerators.ts:71 | with a non-empty generated identifier the field is set afterwards, and a second run of the hook changes nothing |
| UuidHook.PerInstanceIdsDiffer | backend/src/helpers/defaultAPIGenerators.ts:71 | two entities inserted without identifiers get the two generated identifiers, so they differ when those differ |
| UuidHook.SetupUUIDAsWritten | backend/src/helpers/defaultAPIGenerators.ts:63-72 | the installed hook tests and assigns the prototype's field and leaves the inserted instance's own fields untouched |
| UuidHook.AsWrittenInstancesShareId | backend/src/helpers/defaultAPIGenerators.ts:63-72 | two id-less instances inserted in turn both read the first generated identifier |
| Storage.IndexOf | backend/src/helpers/defaultAPIGenerators.ts:163 | the position found is the first row matching the condition; none is found iff no row matches |
| Storage.IndexOfStoredId | backend/src/helpers/defaultAPIGenerators.ts:171 | in a valid table, a stored identifier finds its own row |
| Storage.FindOne | backend/src/helpers/defaultAPIGenerators.ts:163 | a row is returned iff some row matches, and the row returned is stored and matches |
| Storage.Save | backend/src/helpers/defaultAPIGenerators.ts:167-168 | saving keeps the table valid; the saved row equals the given one except possibly a generated identifier; an insert stores and returns the given row after the hook, with the generated identifier when the hook set one, and exactly the given one when its identifier was truthy; the table either has the row with that identifier replaced or has the saved row appended; it fails exactly when no row holds the given identifier and the row to insert, after the hook, has no identifier or one already stored |
| Storage.Remove | backend/src/helpers/defaultAPIGenerators.ts:173 | removal drops exactly one row and keeps every other row in storage order, and keeps the table valid without the removed identifier |
| Synthesizer.CursorColumn | backend/src/helpers/defaultAPIGenerators.ts:137-139 | `paginated: true` puts the cursor on "id"; `false` and "" put none; any other string names the cursor column |
| Synthesizer.SearchColumns | backend/src/helpers/defaultAPIGenerators.ts:144-152 | each listed column whose term is truthy gets a `Like` of that term; every other key keeps its previous clause |
| Synthesizer.ApplyOption | backend/src/helpers/defaultAPIGenerators.ts:135-157 | one option consumes one argument: it throws exactly for a null argument to a non-empty column list; it keeps skip and take; it changes exactly the keys it writes, with the clause it writes |
| Synthesizer.Limit | backend/src/helpers/defaultAPIGenerators.ts:132-134 | the loop visits no option past the last argument and no argument past the last option |
| Synthesizer.BuildFromSpec | backend/src/helpers/defaultAPIGenerators.ts:131-158 | about `Synthesizer.BuildFrom`, the LIST loop from any index: it throws iff a visited list-valued search meets a null argument; otherwise a key is present iff it was before or a visited option writes it; a written key holds the clause of the last visited option that writes it, since a later assignment overwrites an earlier one; an unwritten key keeps its old clause |
| Synthesizer.BuildListOptions | backend/src/helpers/defaultAPIGenerators.ts:129-159 | LIST always has skip 0 and take 20; a `where` key exists iff a visited single-column search names it, holding `Like` of the argument of the last such search; a top-level key exists iff a visited cursor or column-list option writes it, holding the clause of the last visited option that writes it |
| Synthesizer.LaterOptionOverwrites | backend/src/helpers/defaultAPIGenerators.ts:136-152 | with `paginated: "title"` then `search: ["title"]` and arguments 5 and "x", the search's `Like("x")` replaces the cursor's `MoreThan(5)` on "title" |
| Synthesizer.ListIgnoresOptionsPastArgs | backend/src/helpers/defaultAPIGenerators.ts:132-134 | options beyond the supplied arguments change nothing |
| Synthesizer.PrimaryFieldOnlyConsumesArgument | backend/src/helpers/defaultAPIGenerators.ts:131-157 | a `primaryField` key takes up an argument position but adds nothing: removing it and its argument gives the same query |
| Synthesizer.SoleTopWriter | backend/src/helpers/defaultAPIGenerators.ts:136-152 | the only option writing a top-level key determines its clause, e.g. `MoreThan(args[i])` on "id" for `paginated: true` |
| Synthesizer.SoleWhereWriter | backend/src/helpers/defaultAPIGenerators.ts:153-155 | a single-column search always sets `where[column]` to `Like` of its argument, even an undefined one |
| Synthesizer.WhereOnlyFromSingleColumnSearch | backend/src/helpers/defaultAPIGenerators.ts:136-155 | without a single-column search, `where` stays empty: pagination and column-list clauses live outside it |
| Synthesizer.KeyField | backend/src/helpers/defaultAPIGenerators.ts:162 | GET's key column is never empty; it is the declared `primaryField` when that is non-empty, and "id" when it is empty or not declared |
| Synthesizer.Merge | backend/src/helpers/defaultAPIGenerators.ts:178 | fields supplied by an object payload overwrite, all other fields keep their value, and no field is lost |
| Synthesizer.Synthesize | backend/src/helpers/defaultAPIGenerators.ts:121-181 | a non-nullish result of the wrapped method is returned verbatim and the table is untouched; every operation keeps the table valid; a thrown error leaves the table unchanged; LIST and GET never write; each operation returns its own kind of response |
| Synthesizer.GetReturnsStoredRow | backend/src/helpers/defaultAPIGenerators.ts:160-165 | GET throws `NotFound` with the argument iff no row matches on the key column; otherwise it returns a stored row that matches |
| Synthesizer.MissingIdNotFound | backend/src/helpers/defaultAPIGenerators.ts:170-177 | UPDATE and DELETE look up by "id" whatever `primaryField` says; an unknown id throws `NotFound` and leaves the table unchanged |
| Synthesizer.UpdateMergesPayload | backend/src/helpers/defaultAPIGenerators.ts:175-180 | UPDATE of a stored row, with a payload that leaves out `id` or repeats the row's own, returns the merged entity and stores it in that row's place: supplied fields overwritten, others unchanged |
| Synthesizer.DeleteRemovesExactlyOne | backend/src/helpers/defaultAPIGenerators.ts:170-174 | DELETE of a stored row returns `true`, removes that row, keeps every other row, and leaves no row with that id |
| Synthesizer.CreateAssignsGeneratedId | backend/src/helpers/defaultAPIGenerators.ts:166-169 | CREATE of an id-less entity of a UUID class stores and returns it with the generated identifier |
| Synthesizer.CreateKeepsPresetId | backend/src/helpers/defaultAPIGenerators.ts:166-169 | CREATE returns the entity with the identifier it was given; when the identifier is new, the entity is appended as given; when a row of a valid table holds it, that row is overwritten |

## Findings

| source | as written | input that shows it | evidently intended | confidence | as-written member | corrected member |
|---|---|---|---|---|---|---|
| backend/src/helpers/defaultAPIGenerators.ts:63-72 | `setupUUID` is an arrow function closing over `object`, the decorator's target, which is the entity prototype. It tests and assigns the prototype's id field, never the entity being inserted | two `Group`s created in turn without ids, with the generator yielding "u1" then "u2": the first insert sets the prototype's id to "u1"; the second finds it set and generates nothing; both entities read "u1" through the prototype | the generated identifier is assigned to the entity being inserted, so each insert gets its own | medium: the inherited read assumes the compiled class does not define own `id` fields (if it did, the entity would stay without an id); not executed | UuidHook.AsWrittenInstancesShareId | UuidHook.SetupUUID |
| backend/src/db/entities/core/Group.ts:17-18 | `calculatePermissions` iterates over `Permissions`, which the file neither imports nor declares (its imports are lines 1-2) | any group, in a runtime with no global `Permissions`: the `for ... in` throws a ReferenceError, and so do `hasPermission` and `hasPermissions`, which call it first | the loop walks the permission registry, as `calculateRoles` walks `Roles.json` | medium: a global declared outside these files would make it work; not executed | GroupEntity.AsWrittenPermissionsThrow | GroupEntity.CalculatePermissionsAppendsMissing |

`Storage.Save` uses the corrected hook. `UuidHook.PerInstanceIdsDiffer` shows that the corrected hook gives two id-less entities the two generated identifiers, so they differ when the generator's values differ.

## Left out

- Reflection and metadata registration are left out. This covers the context-parameter registration of `Restricted` (lines 49-58), the column and listener registration of `PrimaryUUIDColumn` (lines 84-94) and the entity decorators. They are framework wiring. The model passes the context to the gate as its own parameter, as the registered parameter does.
- The commented-out binary-UUID code, `binaryFields` and the `hexbin` helpers are left out. They are dead code.
- The identifier generator (`./uuid`) is not part of this model. Its value is a parameter, and no format is claimed for it. The 36-character column length is not modelled.
- The `Context` type and `Roles.json` are not part of this model. The context's user is assumed to carry a `roles` list. The registry is a parameter. `Permissions` is not imported in `Group.ts`, so as written the permission methods throw unless a global of that name exists (see Findings). The rest of the model takes that registry as a parameter.
- Asynchrony is left out, along with the `this` binding of the wrapped method and the ORM's query execution. LIST returns the options object it hands to `find`, not a page of rows. Whether the store honours clauses at the top level of that object is up to the store.
- `null` stored `roles` or `permissions` lists are left out. They make `includes` throw; the model's lists are never null.
- Record field names "where", "skip" or "take" used as cursor or search columns are left out. They would overwrite the options object's own keys; the model keeps those keys apart.
- `console.log` in the search loop is left out.
- Arrays, functions and non-integer numbers as argument values are left out. So are inherited properties read through an argument's prototype, and the character keys `Object.assign` copies from a string payload. A string payload counts as a non-object and changes nothing.
- The different wording of UPDATE's not-found message (a trailing "!") is left out. All three not-found errors are `NotFound(entity, id)`.
- UserEntity.HasRole returns only the answer. The change to the stored roles it makes through `calculateRoles` is the one `CalculateRoles` returns, and by idempotence later calls repeat it.
- UserEntity.HasRoles returns only the answer, for the same reason.
- GroupEntity.HasPermission returns only the answer, for the same reason.
- GroupEntity.HasPermissions returns only the answer, for the same reason.
- UuidHook.SetupUUIDIdempotent assumes the generator yields a non-empty identifier. An empty one is falsy, so a second run of the hook would generate again.
- UpdateMergesPayload does not cover a payload whose `id` differs from the row's: `save` then goes by the new id, inserting or overwriting another row, as `Synthesize` and `Storage.Save` model without a dedicated lemma.
- The decorator's options are an object, so each key appears once. The model's options list may repeat a key; each entry then uses its own value.
- Errors thrown by the original method itself are not modelled. `wrapped` always returns a value, whereas in the source an exception from the original method propagates and no default operation runs.

=== FILE: gate.dfy ===
/** The `Restricted` method decorator: a gate that checks the caller's roles
    before the wrapped resolver runs. */
module Gate {
  import opened Results
  import opened Grants
  import UserEntity

  /** The logged-in user as the request context carries it; the gate reads
      its stored `roles` directly and does not resolve default roles. */
  datatype Principal = Principal(roles: seq<string>)

  /** The request context that the schema layer passes as the resolver's
      last argument; `user` is absent for anonymous requests. */
  datatype Context = Context(user: Option<Principal>)

  /** The two `AuthenticationError`s the gate throws. */
  datatype AuthError =
    | Unauthenticated  // "You must be logged in to access this resource"
    | Unauthorized     // "You do not have permission to access this resource"

  /** The loop of `hasAccess` from position `i` on, with `count` matches
      so far: in AND mode each required role the user holds is counted and
      the count is compared with `|required|` at the end; in OR mode the
      first held role answers true. */
  function AccessFrom(required: seq<string>, rolesAnd: bool, held: seq<string>, i: nat, count: nat): (ok: bool)
    requires i <= |required|
    requires rolesAnd ==> count == HeldCount(required[..i], held)
    requires !rolesAnd ==> count == 0 && forall k :: 0 <= k < i ==> required[k] !in held
    ensures rolesAnd ==> (ok <==> forall k :: 0 <= k < |required| ==> required[k] in held)
    ensures !rolesAnd ==> (ok <==> exists k :: 0 <= k < |required| && required[k] in held)
    decreases |required| - i
  {
    if i == |required| then
      assert required[..i] == required;
      rolesAnd && count == |required|
    else
      assert required[..i + 1][..i] == required[..i];
      if required[i] in held then
        if rolesAnd then AccessFrom(required, rolesAnd, held, i + 1, count + 1) else true
      else
        AccessFrom(required, rolesAnd, held, i + 1, count)
  }

  /** `hasAccess(user)`: AND mode is containment of `required` in the
      user's stored roles (true for an empty list); OR mode is overlap
      (false for an empty list). */
  function HasAccess(required: seq<string>, rolesAnd: bool, user: Principal): (ok: bool)
    ensures rolesAnd ==> (ok <==> forall k :: 0 <= k < |required| ==> required[k] in user.roles)
    ensures !rolesAnd ==> (ok <==> exists k :: 0 <= k < |required| && required[k] in user.roles)
    ensures |required| == 0 ==> (ok <==> rolesAnd)
  {
    assert required[..0] == [];
    AccessFrom(required, rolesAnd, user.roles, 0, 0)
  }

  /** The decorated resolver: `wrapped` stands for the original method,
      `args` for its arguments before the trailing context. A missing user
      is rejected first, then a user failing `hasAccess`; otherwise the
      original method's result is passed through unchanged. */
  function Restricted<A, R>(required: seq<string>, rolesAnd: bool, wrapped: (A, Context) -> R, args: A, ctx: Context): (r: Result<R, AuthError>)
    ensures r == Failure(Unauthenticated) <==> ctx.user.None?
    ensures r == Failure(Unauthorized) <==> ctx.user.Some? && !HasAccess(required, rolesAnd, ctx.user.value)
    ensures r.Success? ==> r.value == wrapped(args, ctx)
    ensures ctx.user.Some? && rolesAnd ==>
              (r.Success? <==> forall k :: 0 <= k < |required| ==> required[k] in ctx.user.value.roles)
    ensures ctx.user.Some? && !rolesAnd ==>
              (r.Success? <==> exists k :: 0 <= k < |required| && required[k] in ctx.user.value.roles)
  {
    if ctx.user.None? then Failure(Unauthenticated)
    else if HasAccess(required, rolesAnd, ctx.user.value) then Success(wrapped(args, ctx))
    else Failure(Unauthorized)
  }

  /** A rejected call never reaches the original method: the outcome is the
      same whatever method is wrapped. */
  lemma RejectionSkipsWrapped<A, R>(required: seq<string>, rolesAnd: bool, wrapped: (A, Context) -> R, args: A, ctx: Context)
    requires Restricted(required, rolesAnd, wrapped, args, ctx).Failure?
    ensures forall other: (A, Context) -> R :: Restricted(required, rolesAnd, other, args, ctx) == Restricted(required, rolesAnd, wrapped, args, ctx)
  {
  }

  /** `@Restricted()` with its defaults (no roles, AND mode) admits exactly
      the logged-in callers. */
  lemma DefaultsRequireLoginOnly<A, R>(wrapped: (A, Context) -> R, args: A, ctx: Context)
    ensures Restricted([], true, wrapped, args, ctx).Success? <==> ctx.user.Some?
  {
  }

  /** A user holding only `"read"` fails `["read", "write"]` in AND mode and
      passes it in OR mode. */
  lemma ReadOnlyUser<A, R>(wrapped: (A, Context) -> R, args: A)
    ensures Restricted(["read", "write"], true, wrapped, args, Context(Some(Principal(["read"])))) == Failure(Unauthorized)
    ensures Restricted(["read", "write"], false, wrapped, args, Context(Some(Principal(["read"])))) == Success(wrapped(args, Context(Some(Principal(["read"])))))
  {
    assert "write" !in ["read"];
    assert ["read", "write"][0] in ["read"];
  }

  /** The gate does not consult default roles: a user whose stored roles
      lack a default role holds it by `hasRole`, yet the gate refuses a
      method that requires it. */
  lemma GateIgnoresDefaultRoles(u: UserEntity.User, roles: Registry, i: nat)
    requires i < |roles| && roles[i].isDefault && roles[i].id !in u.roles
    ensures UserEntity.HasRole(u, roles, roles[i].id)
    ensures !HasAccess([roles[i].id], true, Principal(u.roles))
  {
    assert [roles[i].id][0] !in u.roles;
  }
}

=== FILE: grants.dfy ===
/** Grant resolution shared by users (roles) and groups (permissions): the
    effective grant list and the count-based AND/OR membership checks. Both
    entities run the same code over their own list and registry. */
module Grants {

  /** One key of the grant registry (`Roles.json` for users, `Permissions`
      for groups) with its `default` flag. */
  datatype RegistryEntry = RegistryEntry(id: string, isDefault: bool)

  /** The registry in key-enumeration order. */
  type Registry = seq<RegistryEntry>

  /** Registry keys are object keys, hence distinct. */
  ghost predicate UniqueIds(reg: Registry) {
    forall i, j :: 0 <= i < j < |reg| ==> reg[i].id != reg[j].id
  }

  /** No string occurs twice in `s`. */
  ghost predicate NoDuplicates(s: seq<string>) {
    forall i, j :: 0 <= i < j < |s| ==> s[i] != s[j]
  }

  /** The ids marked `default`, in registry order. */
  function DefaultIds(reg: Registry): (ids: seq<string>)
    ensures |ids| <= |reg|
    ensures forall i :: 0 <= i < |reg| && reg[i].isDefault ==> reg[i].id in ids
    ensures forall x :: x in ids ==> exists i :: 0 <= i < |reg| && reg[i].isDefault && reg[i].id == x
  {
    if |reg| == 0 then []
    else
      var rest := DefaultIds(reg[1..]);
      assert forall i :: 1 <= i < |reg| ==> reg[i] == reg[1..][i - 1];
      if reg[0].isDefault then [reg[0].id] + rest else rest
  }

  /** The entries of `ids` that are not in `present`, in order: the
      reference description of what resolution appends. */
  function Missing(ids: seq<string>, present: seq<string>): (r: seq<string>)
    ensures forall x :: x in r <==> x in ids && x !in present
  {
    if |ids| == 0 then []
    else if ids[0] in present then Missing(ids[1..], present)
    else [ids[0]] + Missing(ids[1..], present)
  }

  /** The resolution loop of `calculateRoles` / `calculatePermissions`:
      walks the registry and pushes every default id that the list being
      built does not yet include. The `includes` test sees the ids pushed
      so far, so nothing is pushed twice. */
  function Extend(acc: seq<string>, reg: Registry): (r: seq<string>)
    ensures |acc| <= |r| && r[..|acc|] == acc
    ensures forall k :: |acc| <= k < |r| ==> r[k] !in r[..k]
    decreases |reg|
  {
    if |reg| == 0 then acc
    else
      var e := reg[0];
      var acc' := if e.isDefault && e.id !in acc then acc + [e.id] else acc;
      var r := Extend(acc', reg[1..]);
      ExtendStep(acc, acc', e.id, r);
      r
  }

  /** One push of the resolution loop keeps the earlier entries and the
      fresh-entry property of everything after them. */
  lemma ExtendStep(acc: seq<string>, acc': seq<string>, id: string, r: seq<string>)
    requires acc' == acc || (id !in acc && acc' == acc + [id])
    requires |acc'| <= |r| && r[..|acc'|] == acc'
    requires forall k :: |acc'| <= k < |r| ==> r[k] !in r[..k]
    ensures |acc| <= |r| && r[..|acc|] == acc
    ensures forall k :: |acc| <= k < |r| ==> r[k] !in r[..k]
  {
    assert r[..|acc|] == acc'[..|acc|];
    forall k | |acc| <= k < |r|
      ensures r[k] !in r[..k]
    {
      if k < |acc'| {
        assert r[k] == acc'[k] == id;
        assert r[..k] == acc;
      }
    }
  }

  /** The registry's default ids are its head's, when default, followed by
      those of its tail. */
  lemma DefaultIdsCons(reg: Registry)
    requires |reg| > 0
    ensures DefaultIds(reg) == (if reg[0].isDefault then [reg[0].id] else []) + DefaultIds(reg[1..])
  {
  }

  /** Resolution appends only default ids. */
  lemma {:induction false} ExtendOnlyDefaults(acc: seq<string>, reg: Registry)
    ensures forall k :: |acc| <= k < |Extend(acc, reg)| ==> Extend(acc, reg)[k] in DefaultIds(reg)
    decreases |reg|
  {
    if |reg| != 0 {
      var e := reg[0];
      var acc' := if e.isDefault && e.id !in acc then acc + [e.id] else acc;
      var r := Extend(acc', reg[1..]);
      ExtendOnlyDefaults(acc', reg[1..]);
      DefaultIdsCons(reg);
      forall k | |acc| <= k < |r|
        ensures r[k] in DefaultIds(reg)
      {
        if k < |acc'| {
          assert r[k] == acc'[k] == e.id;
        } else {
          assert r[k] in DefaultIds(reg[1..]);
        }
      }
    }
  }

  /** Resolution leaves no default id out. */
  lemma {:induction false} ExtendCoversDefaults(acc: seq<string>, reg: Registry)
    ensures forall x :: x in DefaultIds(reg) ==> x in Extend(acc, reg)
    decreases |reg|
  {
    if |reg| != 0 {
      var e := reg[0];
      var acc' := if e.isDefault && e.id !in acc then acc + [e.id] else acc;
      var r := Extend(acc', reg[1..]);
      ExtendCoversDefaults(acc', reg[1..]);
      DefaultIdsCons(reg);
      if e.isDefault {
        var k :| 0 <= k < |acc'| && acc'[k] == e.id;
        assert r[k] == e.id;
      }
    }
  }

  /** Resolution appends at most one entry per default id. */
  lemma {:induction false} ExtendLength(acc: seq<string>, reg: Registry)
    ensures |Extend(acc, reg)| <= |acc| + |DefaultIds(reg)|
    decreases |reg|
  {
    if |reg| != 0 {
      var e := reg[0];
      var acc' := if e.isDefault && e.id !in acc then acc + [e.id] else acc;
      ExtendLength(acc', reg[1..]);
      DefaultIdsCons(reg);
    }
  }

  /** The three facts above together. */
  lemma ExtendDefaults(acc: seq<string>, reg: Registry)
    ensures var r := Extend(acc, reg);
            && (forall k :: |acc| <= k < |r| ==> r[k] in DefaultIds(reg))
            && (forall x :: x in DefaultIds(reg) ==> x in r)
            && |r| <= |acc| + |DefaultIds(reg)|
  {
    ExtendOnlyDefaults(acc, reg);
    ExtendCoversDefaults(acc, reg);
    ExtendLength(acc, reg);
  }

  /** The effective grant list: the explicit list followed by the default
      registry ids it lacks. */
  function Effective(explicit: seq<string>, reg: Registry): (r: seq<string>)
    ensures |explicit| <= |r| && r[..|explicit|] == explicit
    ensures forall x :: x in r <==> x in explicit || x in DefaultIds(reg)
  {
    var r := Extend(explicit, reg);
    ExtendDefaults(explicit, reg);
    assert forall x :: x in explicit ==> x in r by {
      forall x | x in explicit ensures x in r {
        var k :| 0 <= k < |explicit| && explicit[k] == x;
        assert r[k] == x;
      }
    }
    assert forall x :: x in r ==> x in explicit || x in DefaultIds(reg) by {
      forall x | x in r ensures x in explicit || x in DefaultIds(reg) {
        var k :| 0 <= k < |r| && r[k] == x;
        if k < |explicit| {
          assert explicit[k] == x;
        }
      }
    }
    r
  }

  /** Number of occurrences of `x` in `s`. */
  function Occurrences(s: seq<string>, x: string): (n: nat)
    ensures n <= |s|
    ensures n == 0 <==> x !in s
  {
    if |s| == 0 then 0
    else Occurrences(s[..|s| - 1], x) + (if s[|s| - 1] == x then 1 else 0)
  }

  /** Number of pairs (held[i], required[j]) with equal strings: what the
      nested loop of `hasRoles` / `hasPermissions` counts in AND mode. */
  function PairCount(held: seq<string>, required: seq<string>): nat
  {
    if |held| == 0 then 0
    else PairCount(held[..|held| - 1], required) + Occurrences(required, held[|held| - 1])
  }

  /** Number of entries of `required` that `held` includes: what the loop
      of `Restricted`'s `hasAccess` counts in AND mode. */
  function HeldCount(required: seq<string>, held: seq<string>): (n: nat)
    ensures n <= |required|
    ensures n == |required| <==> forall k :: 0 <= k < |required| ==> required[k] in held
  {
    if |required| == 0 then 0
    else
      var front := required[..|required| - 1];
      var n := HeldCount(front, held) + (if required[|required| - 1] in held then 1 else 0);
      assert forall k :: 0 <= k < |front| ==> front[k] == required[k];
      n
  }

  /** True iff some entry of `required` is in `held`: the OR-mode answer. */
  predicate AnyHeld(required: seq<string>, held: seq<string>) {
    exists k :: 0 <= k < |required| && required[k] in held
  }

  /** The literal nested loop of `hasRoles` / `hasPermissions`: for each
      held grant, scan `required`; in OR mode return true on the first
      match, in AND mode count matches and compare with `|required|`. */
  method MatchGrants(held: seq<string>, required: seq<string>, requireAll: bool) returns (ok: bool)
    ensures requireAll ==> (ok <==> PairCount(held, required) == |required|)
    ensures !requireAll ==> (ok <==> AnyHeld(required, held))
  {
    var count := 0;
    for i := 0 to |held|
      invariant requireAll ==> count == PairCount(held[..i], required)
      invariant !requireAll ==> forall k :: 0 <= k < |required| ==> required[k] !in held[..i]
    {
      for j := 0 to |required|
        invariant requireAll ==> count == PairCount(held[..i], required) + Occurrences(required[..j], held[i])
        invariant !requireAll ==> forall k :: 0 <= k < j ==> required[k] != held[i]
      {
        assert required[..j + 1][..j] == required[..j];
        if held[i] == required[j] {
          if requireAll {
            count := count + 1;
          } else {
            assert required[j] in held;
            return true;
          }
        }
      }
      assert required[..|required|] == required;
      assert held[..i + 1][..i] == held[..i];
    }
    assert held[..|held|] == held;
    return requireAll && count == |required|;
  }

  /** Once every default id is present, resolution appends nothing. */
  lemma {:induction false} ExtendSaturated(acc: seq<string>, reg: Registry)
    requires forall x :: x in DefaultIds(reg) ==> x in acc
    ensures Extend(acc, reg) == acc
    decreases |reg|
  {
    if |reg| != 0 {
      assert DefaultIds(reg) == (if reg[0].isDefault then [reg[0].id] else []) + DefaultIds(reg[1..]);
      ExtendSaturated(acc, reg[1..]);
    }
  }

  /** Resolution is idempotent: resolving an already resolved list returns
      it unchanged. */
  lemma EffectiveIdempotent(explicit: seq<string>, reg: Registry)
    ensures Effective(Effective(explicit, reg), reg) == Effective(explicit, reg)
  {
    ExtendSaturated(Effective(explicit, reg), reg);
  }

  lemma {:induction false} MissingNone(ids: seq<string>)
    ensures Missing(ids, []) == ids
  {
    if |ids| != 0 {
      MissingNone(ids[1..]);
    }
  }

  lemma {:induction false} MissingIgnoresAbsent(ids: seq<string>, present: seq<string>, x: string)
    requires x !in ids
    ensures Missing(ids, present + [x]) == Missing(ids, present)
  {
    if |ids| != 0 {
      assert ids[0] in present + [x] <==> ids[0] in present;
      MissingIgnoresAbsent(ids[1..], present, x);
    }
  }

  /** The tail of a registry with distinct keys has distinct keys, and
      none of them is the head's. */
  lemma UniqueTail(reg: Registry)
    requires |reg| > 0 && UniqueIds(reg)
    ensures UniqueIds(reg[1..])
    ensures reg[0].id !in DefaultIds(reg[1..])
  {
    var tail := reg[1..];
    forall i, j | 0 <= i < j < |tail| ensures tail[i].id != tail[j].id {
      assert tail[i] == reg[i + 1] && tail[j] == reg[j + 1];
    }
  }

  /** With a registry of distinct keys, resolution appends exactly the
      default ids the explicit list lacks, in registry order. */
  lemma {:induction false} ExtendIsMissingDefaults(acc: seq<string>, reg: Registry)
    requires UniqueIds(reg)
    ensures Extend(acc, reg) == acc + Missing(DefaultIds(reg), acc)
    decreases |reg|
  {
    if |reg| != 0 {
      var e := reg[0];
      var rest := DefaultIds(reg[1..]);
      UniqueTail(reg);
      if !e.isDefault {
        assert DefaultIds(reg) == rest;
        ExtendIsMissingDefaults(acc, reg[1..]);
      } else if e.id in acc {
        assert DefaultIds(reg) == [e.id] + rest;
        assert ([e.id] + rest)[1..] == rest;
        ExtendIsMissingDefaults(acc, reg[1..]);
      } else {
        assert DefaultIds(reg) == [e.id] + rest;
        assert ([e.id] + rest)[1..] == rest;
        assert Missing(DefaultIds(reg), acc) == [e.id] + Missing(rest, acc);
        ExtendIsMissingDefaults(acc + [e.id], reg[1..]);
        MissingIgnoresAbsent(rest, acc, e.id);
      }
    }
  }

  /** An entity with no explicit grants holds exactly the default ids. */
  lemma EffectiveOfNothing(reg: Registry)
    requires UniqueIds(reg)
    ensures Effective([], reg) == DefaultIds(reg)
  {
    ExtendIsMissingDefaults([], reg);
    MissingNone(DefaultIds(reg));
  }

  /** Resolution introduces no duplicate: a duplicate-free explicit list
      stays duplicate-free. */
  lemma EffectiveNoDuplicates(explicit: seq<string>, reg: Registry)
    requires NoDuplicates(explicit)
    ensures NoDuplicates(Effective(explicit, reg))
  {

  }

  lemma {:induction false} HeldCountOfNothing(required: seq<string>)
    ensures HeldCount(required, []) == 0
  {
    if |required| != 0 {
      HeldCountOfNothing(required[..|required| - 1]);
    }
  }

  lemma {:induction false} HeldCountAddAbsent(required: seq<string>, held: seq<string>, x: string)
    requires x !in held
    ensures HeldCount(required, held + [x]) == HeldCount(required, held) + Occurrences(required, x)
  {
    if |required| != 0 {
      HeldCountAddAbsent(required[..|required| - 1], held, x);
    }
  }

  /** With nothing required, no pair matches. */
  lemma {:induction false} PairCountOfNothing(held: seq<string>)
    ensures PairCount(held, []) == 0
  {
    if |held| != 0 {
      PairCountOfNothing(held[..|held| - 1]);
    }
  }

  /** On a duplicate-free held list the pair count equals the number of
      required entries held. */
  lemma {:induction false} PairCountDistinct(held: seq<string>, required: seq<string>)
    requires NoDuplicates(held)
    ensures PairCount(held, required) == HeldCount(required, held)
  {
    if |held| == 0 {
      HeldCountOfNothing(required);
    } else {
      var front := held[..|held| - 1];
      var x := held[|held| - 1];
      assert held == front + [x];
      assert NoDuplicates(front) by {
        forall i, j | 0 <= i < j < |front| ensures front[i] != front[j] {
          assert front[i] == held[i] && front[j] == held[j];
        }
      }
      assert x !in front;
      PairCountDistinct(front, required);
      assert PairCount(held, required) == PairCount(front, required) + Occurrences(required, x);
      HeldCountAddAbsent(required, front, x);
    }
  }

  /** AND mode of the nested loop is set containment when the held list is
      duplicate-free. */
  lemma AllModeIsContainment(held: seq<string>, required: seq<string>)
    requires NoDuplicates(held)
    ensures PairCount(held, required) == |required| <==> forall k :: 0 <= k < |required| ==> required[k] in held
  {
    PairCountDistinct(held, required);
  }

  /** A repeated held grant breaks containment one way: `["a", "a"]` holds
      `"a"`, yet the AND check for `["a"]` counts two matches and fails. */
  lemma RepeatedHeldRejectsHeldGrant()
    ensures "a" in ["a", "a"]
    ensures PairCount(["a", "a"], ["a"]) != |["a"]|
  {

  }

  /** ... and the other way: `["a", "a"]` lacks `"b"`, yet the AND check
      for `["a", "b"]` counts two matches and succeeds. */
  lemma RepeatedHeldAdmitsMissingGrant()
    ensures "b" !in ["a", "a"]
    ensures PairCount(["a", "a"], ["a", "b"]) == |["a", "b"]|
  {

  }
}

=== FILE: group.dfy ===
/** The `Group` entity's permission resolution and permission checks. The
    permission registry is not imported where it is used, so the model
    takes it as a parameter like the role registry. */
module GroupEntity {
  import opened Results
  import opened Grants

  /** A group row. */
  datatype Group = Group(id: string, name: string, permissions: seq<string>)

  /** `calculatePermissions`: the stored permissions followed by every
      default permission they lack. It pushes onto the array read from
      `this.permissions`, so the group's stored permissions become the
      result; the first component is the group after the call. */
  function CalculatePermissions(g: Group, perms: Registry): (out: (Group, seq<string>))
    ensures out.0 == g.(permissions := out.1)
    ensures |g.permissions| <= |out.1| && out.1[..|g.permissions|] == g.permissions
    ensures forall k :: |g.permissions| <= k < |out.1| ==> out.1[k] in DefaultIds(perms) && out.1[k] !in out.1[..k]
    ensures forall i :: 0 <= i < |perms| && perms[i].isDefault ==> perms[i].id in out.1
    ensures forall x :: x in out.1 <==> x in g.permissions || x in DefaultIds(perms)
    ensures |out.1| <= |g.permissions| + |DefaultIds(perms)|
  {
    var r := Effective(g.permissions, perms);
    ExtendDefaults(g.permissions, perms);
    (g.(permissions := r), r)
  }

  /** With a registry of distinct keys the appended part is exactly the
      default permissions the group lacks, in registry order. */
  lemma CalculatePermissionsAppendsMissing(g: Group, perms: Registry)
    requires UniqueIds(perms)
    ensures CalculatePermissions(g, perms).1 == g.permissions + Missing(DefaultIds(perms), g.permissions)
  {
    ExtendIsMissingDefaults(g.permissions, perms);
  }

  /** A second `calculatePermissions` returns the same list and leaves the
      group as the first call left it. */
  lemma CalculatePermissionsIdempotent(g: Group, perms: Registry)
    ensures CalculatePermissions(CalculatePermissions(g, perms).0, perms) == CalculatePermissions(g, perms)
  {
    EffectiveIdempotent(g.permissions, perms);
  }

  /** The error a read of an undeclared identifier throws. */
  datatype ScriptError = ReferenceError

  /** `calculatePermissions` as written: the loop reads `Permissions`, an
      identifier the file neither imports nor declares. `global` is the
      global binding of that name, if the runtime has one; without it the
      first read throws, and so do `hasPermission` and `hasPermissions`,
      which call this method first. */
  function CalculatePermissionsAsWritten(g: Group, global: Option<Registry>): (r: Result<(Group, seq<string>), ScriptError>)
    ensures r.Failure? <==> global.None?
    ensures r.Failure? ==> r.error == ReferenceError
    ensures global.Some? ==> r.Success? && r.value.0.permissions == r.value.1
    ensures global.Some? && r.Success? ==>
              forall x :: x in r.value.1 <==> x in g.permissions || x in DefaultIds(global.value)
  {
    match global
    case None => Failure(ReferenceError)
    case Some(perms) => Success(CalculatePermissions(g, perms))
  }

  /** With no global `Permissions`, every group's `calculatePermissions`
      throws, whatever it stores; the corrected `CalculatePermissions`
      takes the registry as a parameter and always resolves. */
  lemma AsWrittenPermissionsThrow(g: Group, perms: Registry)
    ensures CalculatePermissionsAsWritten(g, None) == Failure(ReferenceError)
    ensures CalculatePermissionsAsWritten(g, Some(perms)) == Success(CalculatePermissions(g, perms))
  {
  }

  /** `hasPermission`: the permission is stored on the group or is a
      default permission. */
  function HasPermission(g: Group, perms: Registry, p: string): (ok: bool)
    ensures ok <==> p in g.permissions || p in DefaultIds(perms)
    ensures (exists i :: 0 <= i < |perms| && perms[i].isDefault && perms[i].id == p) ==> ok
  {
    p in CalculatePermissions(g, perms).1
  }

  /** `hasPermissions(ps, requireAll)`: OR mode holds iff some permission
      of `ps` is held; AND mode iff the matching (held, required) pairs
      number `|ps|`, which is containment for duplicate-free groups. */
  method HasPermissions(g: Group, perms: Registry, ps: seq<string>, requireAll: bool) returns (ok: bool)
    ensures requireAll ==> (ok <==> PairCount(CalculatePermissions(g, perms).1, ps) == |ps|)
    ensures !requireAll ==> (ok <==> exists k :: 0 <= k < |ps| && (ps[k] in g.permissions || ps[k] in DefaultIds(perms)))
    ensures |ps| == 0 ==> (ok <==> requireAll)
    ensures requireAll && NoDuplicates(g.permissions) ==>
              (ok <==> forall k :: 0 <= k < |ps| ==> ps[k] in g.permissions || ps[k] in DefaultIds(perms))
  {
    var held := CalculatePermissions(g, perms).1;
    ok := MatchGrants(held, ps, requireAll);
    PairCountOfNothing(held);
    if NoDuplicates(g.permissions) {
      EffectiveNoDuplicates(g.permissions, perms);
      AllModeIsContainment(held, ps);
    }
  }
}

=== FILE: results.dfy ===
/** Failure-carrying datatypes shared by the model: an optional value and a
    success-or-error outcome (the source signals errors by throwing). */
module Results {

  /** A value that may be absent (JavaScript's `undefined`/`null` slot). */
  datatype Option<+T> = None | Some(value: T)

  /** The outcome of an operation that either returns a value or throws. */
  datatype Result<+T, +E> = Success(value: T) | Failure(error: E)
}

=== FILE: storage.dfy ===
/** The entity store the generic CRUD operations talk to: one table of rows
    in storage order, looked up with `findOne`, written with `save` and
    `remove`. */
module Storage {
  import opened Results
  import opened Values
  import opened UuidHook

  /** A table: its rows in storage order. */
  type Table = seq<Record>

  /** The primary-key column that UPDATE, DELETE and `save` go by. */
  const IdField: string := "id"

  /** The entity class a decorator is given: its name (used in error
      messages) and whether its primary key is a `PrimaryUUIDColumn`, which
      installs the identifier hook on insert. */
  datatype EntityClass = EntityClass(name: string, uuidPrimary: bool)

  /** The store refuses an insert whose row has no identifier or repeats a
      stored identifier. */
  datatype StoreError = KeyRejected

  /** Every row has an identifier, and no two rows share one. */
  ghost predicate Valid(t: Table) {
    && (forall k :: 0 <= k < |t| ==> IdField in t[k] && !Nullish(t[k][IdField]))
    && (forall i, j :: 0 <= i < j < |t| ==> t[i][IdField] != t[j][IdField])
  }

  /** The row satisfies the equality condition `{where: {field: v}}`. */
  predicate Matches(row: Record, field: string, v: Value) {
    field in row && row[field] == v
  }

  /** Position of the first row matching `{field: v}`, if any. */
  function IndexOf(t: Table, field: string, v: Value): (r: Option<nat>)
    ensures r.Some? ==> r.value < |t| && Matches(t[r.value], field, v)
    ensures r.Some? ==> forall k :: 0 <= k < r.value ==> !Matches(t[k], field, v)
    ensures r.None? <==> forall k :: 0 <= k < |t| ==> !Matches(t[k], field, v)
  {
    if |t| == 0 then None
    else if Matches(t[0], field, v) then Some(0)
    else
      match IndexOf(t[1..], field, v)
      case None =>
        assert forall k :: 1 <= k < |t| ==> t[k] == t[1..][k - 1];
        None
      case Some(k) =>
        assert forall j :: 1 <= j <= k ==> t[j] == t[1..][j - 1];
        Some(k + 1)
  }

  /** In a valid table a stored identifier locates its own row. */
  lemma IndexOfStoredId(t: Table, k: nat)
    requires Valid(t) && k < |t|
    ensures IndexOf(t, IdField, t[k][IdField]) == Some(k)
  {
  }

  /** `findOne({where: {field: v}})`: the first matching row. */
  function FindOne(t: Table, field: string, v: Value): (r: Option<Record>)
    ensures r.Some? <==> exists k :: 0 <= k < |t| && Matches(t[k], field, v)
    ensures r.Some? ==> r.value in t && Matches(r.value, field, v)
  {
    match IndexOf(t, field, v)
    case None => None
    case Some(k) => Some(t[k])
  }

  /** `entity.save()`: an entity whose identifier is stored replaces that
      row; any other is inserted at the end, after the identifier hook has
      run on it when the class has one. */
  function Save(t: Table, rec: Record, cls: EntityClass, generated: string): (r: Result<(Table, Record), StoreError>)
    ensures Valid(t) && r.Success? ==> Valid(r.value.0)
    ensures r.Success? ==> forall f :: f != IdField ==> Field(r.value.1, f) == Field(rec, f)
    ensures r.Success? && Truthy(Field(rec, IdField)) ==> r.value.1 == rec
    ensures r.Success? ==>
              || (exists k :: 0 <= k < |t| && Matches(t[k], IdField, Field(rec, IdField)) && r.value.0 == t[k := rec])
              || r.value.0 == t + [r.value.1]
    ensures r.Failure? ==> forall k :: 0 <= k < |t| ==> !Matches(t[k], IdField, Field(rec, IdField))
    ensures var ins := if cls.uuidPrimary then SetupUUID(rec, IdField, generated) else rec;
            r.Failure? <==>
              && (forall k :: 0 <= k < |t| ==> !Matches(t[k], IdField, Field(rec, IdField)))
              && (Nullish(Field(ins, IdField)) || exists k :: 0 <= k < |t| && Matches(t[k], IdField, Field(ins, IdField)))
    ensures var ins := if cls.uuidPrimary then SetupUUID(rec, IdField, generated) else rec;
            r.Success? && (forall k :: 0 <= k < |t| ==> !Matches(t[k], IdField, Field(rec, IdField))) ==>
              r.value == (t + [ins], ins)
  {
    match IndexOf(t, IdField, Field(rec, IdField))
    case Some(k) =>
      Success((t[k := rec], rec))
    case None =>
      var ins := if cls.uuidPrimary then SetupUUID(rec, IdField, generated) else rec;
      if Nullish(Field(ins, IdField)) || IndexOf(t, IdField, Field(ins, IdField)).Some? then
        Failure(KeyRejected)
      else
        Success((t + [ins], ins))
  }

  /** `entity.remove()` of the row at `k`. */
  function Remove(t: Table, k: nat): (r: Table)
    requires k < |t|
    ensures |r| == |t| - 1
    ensures forall j :: 0 <= j < k ==> r[j] == t[j]
    ensures forall j :: k <= j < |r| ==> r[j] == t[j + 1]
    ensures forall j :: 0 <= j < |t| && j != k ==> t[j] in r
    ensures forall row :: row in r ==> row in t
    ensures Valid(t) ==> Valid(r) && forall j :: 0 <= j < |r| ==> r[j][IdField] != t[k][IdField]
  {
    var r := t[..k] + t[k + 1..];
    assert forall j :: 0 <= j < k ==> r[j] == t[j];
    assert forall j :: k <= j < |r| ==> r[j] == t[j + 1];
    r
  }
}

=== FILE: synthesizer.dfy ===
/** `GenerateDefault` and the `List`/`Get`/`Create`/`Update`/`Delete`
    decorators built on it: run the original resolver, and when it returns
    nothing, perform the CRUD operation the decorator names against the
    entity's table. */
module Synthesizer {
  import opened Results
  import opened Values
  import opened Storage
  import opened UuidHook

  /** The operation a decorator synthesizes (`Type`). */
  datatype Kind = List | Get | Create | Update | Delete

  /** The `paginated` option: a flag (true means the `id` column) or the
      name of the cursor column. */
  datatype Paginate = Flag(on: bool) | Cursor(column: string)

  /** The `search` option: a list of columns or a single column. */
  datatype Search = Columns(columns: seq<string>) | Column(column: string)

  /** One key of the decorator's `options` object with its value. */
  datatype OptionEntry =
    | SearchOption(search: Search)
    | PaginatedOption(paginated: Paginate)
    | PrimaryFieldOption(primaryField: string)

  /** The `options` object as its keys in declaration order. */
  type Options = seq<OptionEntry>

  /** `PAGE_SIZE`: the page length of every LIST query. */
  const PageSize: int := 20

  /** A find operator: `MoreThan(bound)`, or `Like(term)` standing for the
      pattern `"%" + term + "%"` (the term as JavaScript stringifies it). */
  datatype Clause = MoreThan(bound: Value) | Like(term: Value)

  /** The options object LIST hands to `find`: the `where` conditions, the
      clauses assigned at the top level of the object, `skip` and `take`. */
  datatype FindOptions = FindOptions(where: map<string, Clause>, top: map<string, Clause>, skip: int, take: int)

  /** The errors the synthesized operations throw: a record that is not
      found (GET, UPDATE, DELETE), a property read on a `null` search
      argument, and a store refusal that propagates unchanged. */
  datatype ApiError = NotFound(entity: string, id: Value) | NullArgument | Rejected(cause: StoreError)

  /** What a decorated resolver returns: the original method's own value, a
      LIST query, a single entity, or the `true` of a DELETE. */
  datatype Response = Verbatim(v: Value) | Page(query: FindOptions) | Entity(row: Record) | Removed

  /** A call's response or error together with the table after the call. */
  datatype Outcome = Outcome(result: Result<Response, ApiError>, table: Table)

  /** The column a `paginated` option puts its cursor on, if any. */
  function CursorColumn(p: Paginate): (c: Option<string>)
    ensures c.Some? ==> c.value != ""
    ensures p == Flag(true) ==> c == Some(IdField)
    ensures p.Cursor? && p.column != "" ==> c == Some(p.column)
    ensures p == Flag(false) || p == Cursor("") ==> c.None?
  {
    match p
    case Flag(on) => if on then Some(IdField) else None
    case Cursor(column) => if column != "" then Some(column) else None
  }

  /** The search term a list-valued `search` uses for column `c`: the
      argument's field when the argument is an object, the argument itself
      otherwise. */
  function Term(arg: Value, c: string): Value {
    if arg.Obj? then Field(arg.fields, c) else arg
  }

  /** The `forEach` over a list-valued `search`: each column whose term is
      truthy gets a `Like` clause at the top level of the options. */
  function SearchColumns(top: map<string, Clause>, cs: seq<string>, arg: Value): (r: map<string, Clause>)
    ensures forall c :: c in cs && Truthy(Term(arg, c)) ==> c in r && r[c] == Like(Term(arg, c))
    ensures forall c :: c !in cs || !Truthy(Term(arg, c)) ==> (c in r <==> c in top) && (c in top ==> r[c] == top[c])
    decreases |cs|
  {
    if |cs| == 0 then top
    else
      var c := cs[0];
      var top' := if Truthy(Term(arg, c)) then top[c := Like(Term(arg, c))] else top;
      SearchColumns(top', cs[1..], arg)
  }

  /** Reading `args[i][v]` on a `null` argument throws; it happens for a
      non-empty list-valued `search`. */
  predicate NullFault(e: OptionEntry, arg: Value) {
    e.SearchOption? && e.search.Columns? && |e.search.columns| > 0 && arg.Null?
  }

  /** The entry assigns `where[c]`: a single-column `search`. */
  predicate WritesWhere(e: OptionEntry, c: string) {
    e == SearchOption(Column(c))
  }

  /** The entry, given argument `arg`, assigns the top-level key `c`. */
  predicate WritesTop(e: OptionEntry, arg: Value, c: string) {
    || (e.PaginatedOption? && CursorColumn(e.paginated) == Some(c))
    || (e.SearchOption? && e.search.Columns? && c in e.search.columns && !arg.Null? && Truthy(Term(arg, c)))
  }

  /** The clause such an entry assigns to `c`. */
  function TopClause(e: OptionEntry, arg: Value, c: string): Clause {
    if e.PaginatedOption? then MoreThan(arg) else Like(Term(arg, c))
  }

  /** One turn of the LIST loop: option `e` consuming argument `arg`. */
  function ApplyOption(e: OptionEntry, arg: Value, ops: FindOptions): (r: Result<FindOptions, ApiError>)
    ensures r.Failure? <==> NullFault(e, arg)
    ensures r.Failure? ==> r.error == NullArgument
    ensures r.Success? ==> r.value.skip == ops.skip && r.value.take == ops.take
    ensures r.Success? ==> forall c :: c in r.value.where <==> c in ops.where || WritesWhere(e, c)
    ensures r.Success? ==> forall c :: c in r.value.where ==>
              r.value.where[c] == if WritesWhere(e, c) then Like(arg) else ops.where[c]
    ensures r.Success? ==> forall c :: c in r.value.top <==> c in ops.top || WritesTop(e, arg, c)
    ensures r.Success? ==> forall c :: c in r.value.top ==>
              r.value.top[c] == if WritesTop(e, arg, c) then TopClause(e, arg, c) else ops.top[c]
  {
    match e
    case PaginatedOption(p) =>
      (match CursorColumn(p)
       case None => Success(ops)
       case Some(c) => Success(ops.(top := ops.top[c := MoreThan(arg)])))
    case SearchOption(Column(c)) =>
      Success(ops.(where := ops.where[c := Like(arg)]))
    case SearchOption(Columns(cs)) =>
      if arg.Null? then
        (if |cs| == 0 then Success(ops) else Failure(NullArgument))
      else
        Success(ops.(top := SearchColumns(ops.top, cs, arg)))
    case PrimaryFieldOption(_) =>
      Success(ops)
  }

  /** The number of options the LIST loop visits: it stops at the first
      index with no matching argument. */
  function Limit(options: Options, args: seq<Value>): (n: nat)
    ensures n <= |options| && n <= |args|
    ensures n == |options| || n == |args|
  {
    if |options| <= |args| then |options| else |args|
  }

  /** The LIST loop from index `i` on. */
  function BuildFrom(options: Options, args: seq<Value>, i: nat, ops: FindOptions): Result<FindOptions, ApiError>
    requires i <= Limit(options, args)
    decreases Limit(options, args) - i
  {
    if i == Limit(options, args) then Success(ops)
    else
      match ApplyOption(options[i], args[i], ops)
      case Failure(e) => Failure(e)
      case Success(ops') => BuildFrom(options, args, i + 1, ops')
  }

  /** Option `j` writes the top-level key `c`, and no later visited option
      does: its clause is the one the loop leaves there. */
  ghost predicate LastTopWriter(options: Options, args: seq<Value>, j: nat, c: string) {
    && j < Limit(options, args)
    && WritesTop(options[j], args[j], c)
    && forall j' :: j < j' < Limit(options, args) ==> !WritesTop(options[j'], args[j'], c)
  }

  /** Option `j` writes `where[c]`, and no later visited option does. */
  ghost predicate LastWhereWriter(options: Options, args: seq<Value>, j: nat, c: string) {
    && j < Limit(options, args)
    && WritesWhere(options[j], c)
    && forall j' :: j < j' < Limit(options, args) ==> !WritesWhere(options[j'], c)
  }

  /** The LIST loop from index `i` throws exactly when a visited list-valued
      search gets a `null` argument, and never touches `skip` or `take`. */
  lemma {:induction false} BuildFromOutcome(options: Options, args: seq<Value>, i: nat, ops: FindOptions)
    requires i <= Limit(options, args)
    ensures var r := BuildFrom(options, args, i, ops);
            && (r.Failure? <==> exists j :: i <= j < Limit(options, args) && NullFault(options[j], args[j]))
            && (r.Failure? ==> r.error == NullArgument)
            && (r.Success? ==> r.value.skip == ops.skip && r.value.take == ops.take)
    decreases Limit(options, args) - i
  {
    if i < Limit(options, args) {
      var step := ApplyOption(options[i], args[i], ops);
      if step.Success? {
        BuildFromOutcome(options, args, i + 1, step.value);
      }
    }
  }

  /** The keys of `where` the LIST loop from index `i` leaves: those it
      had and those a visited option writes. */
  lemma {:induction false} BuildFromWhereKeys(options: Options, args: seq<Value>, i: nat, ops: FindOptions)
    requires i <= Limit(options, args)
    ensures var r := BuildFrom(options, args, i, ops);
            r.Success? ==> forall c :: c in r.value.where <==>
              c in ops.where || exists j :: i <= j < Limit(options, args) && WritesWhere(options[j], c)
    decreases Limit(options, args) - i
  {
    if i < Limit(options, args) {
      var step := ApplyOption(options[i], args[i], ops);
      if step.Success? {
        BuildFromWhereKeys(options, args, i + 1, step.value);
      }
    }
  }

  /** The `where` conditions the LIST loop from index `i` leaves: a key is
      present iff it was or a visited single-column search writes it, and
      its condition is the last such writer's `Like`, or the old one when
      none writes it. */
  lemma {:induction false} BuildFromWhere(options: Options, args: seq<Value>, i: nat, ops: FindOptions)
    requires i <= Limit(options, args)
    ensures var r := BuildFrom(options, args, i, ops);
            && (r.Success? ==> forall c :: c in r.value.where ==>
                || (c in ops.where && r.value.where[c] == ops.where[c] &&
                    forall j :: i <= j < Limit(options, args) ==> !WritesWhere(options[j], c))
                || exists j :: i <= j && LastWhereWriter(options, args, j, c) && r.value.where[c] == Like(args[j]))
    decreases Limit(options, args) - i
  {
    if i < Limit(options, args) {
      var step := ApplyOption(options[i], args[i], ops);
      if step.Success? {
        var ops' := step.value;
        BuildFromWhere(options, args, i + 1, ops');
        var r := BuildFrom(options, args, i + 1, ops');
        if r.Success? {
          forall c | c in r.value.where
            ensures || (c in ops.where && r.value.where[c] == ops.where[c] &&
                        forall j :: i <= j < Limit(options, args) ==> !WritesWhere(options[j], c))
                    || exists j :: i <= j && LastWhereWriter(options, args, j, c) && r.value.where[c] == Like(args[j])
          {
            if c in ops'.where && r.value.where[c] == ops'.where[c] &&
               forall j :: i + 1 <= j < Limit(options, args) ==> !WritesWhere(options[j], c) {
              assert c in ops'.where && r.value.where[c] == ops'.where[c];
              if WritesWhere(options[i], c) {
                assert ops'.where[c] == Like(args[i]);
                assert LastWhereWriter(options, args, i, c);
              } else {
                assert c in ops.where && ops'.where[c] == ops.where[c];
              }
            }
          }
        }
      }
    }
  }

  /** The keys of `top` the LIST loop from index `i` leaves: those it
      had and those a visited option writes. */
  lemma {:induction false} BuildFromTopKeys(options: Options, args: seq<Value>, i: nat, ops: FindOptions)
    requires i <= Limit(options, args)
    ensures var r := BuildFrom(options, args, i, ops);
            r.Success? ==> forall c :: c in r.value.top <==>
              c in ops.top || exists j :: i <= j < Limit(options, args) && WritesTop(options[j], args[j], c)
    decreases Limit(options, args) - i
  {
    if i < Limit(options, args) {
      var step := ApplyOption(options[i], args[i], ops);
      if step.Success? {
        BuildFromTopKeys(options, args, i + 1, step.value);
      }
    }
  }

  /** The top-level clauses the LIST loop from index `i` leaves: a key is
      present iff it was or a visited option writes it, and its clause is
      the last such writer's, or the old one when none writes it. */
  lemma {:induction false} BuildFromTop(options: Options, args: seq<Value>, i: nat, ops: FindOptions)
    requires i <= Limit(options, args)
    ensures var r := BuildFrom(options, args, i, ops);
            && (r.Success? ==> forall c :: c in r.value.top ==>
                || (c in ops.top && r.value.top[c] == ops.top[c] &&
                    forall j :: i <= j < Limit(options, args) ==> !WritesTop(options[j], args[j], c))
                || exists j :: i <= j && LastTopWriter(options, args, j, c) && r.value.top[c] == TopClause(options[j], args[j], c))
    decreases Limit(options, args) - i
  {
    if i < Limit(options, args) {
      var step := ApplyOption(options[i], args[i], ops);
      if step.Success? {
        var ops' := step.value;
        BuildFromTop(options, args, i + 1, ops');
        var r := BuildFrom(options, args, i + 1, ops');
        if r.Success? {
          forall c | c in r.value.top
            ensures || (c in ops.top && r.value.top[c] == ops.top[c] &&
                        forall j :: i <= j < Limit(options, args) ==> !WritesTop(options[j], args[j], c))
                    || exists j :: i <= j && LastTopWriter(options, args, j, c) && r.value.top[c] == TopClause(options[j], args[j], c)
          {
            TopStep(options, args, i, c, ops.top, ops'.top, r.value.top);
          }
        }
      }
    }
  }

  /** One turn of the LIST loop for one top-level key `c`: `before` and
      `after` are the clauses around option `i`, `final` those at the end.
      If the rest of the loop leaves `c` as option `i` left it, option `i`
      is the last writer or `c` is untouched from `i` on. */
  lemma TopStep(options: Options, args: seq<Value>, i: nat, c: string,
                before: map<string, Clause>, after: map<string, Clause>, final: map<string, Clause>)
    requires i < Limit(options, args) && c in final
    requires c in after <==> c in before || WritesTop(options[i], args[i], c)
    requires c in after ==> after[c] == if WritesTop(options[i], args[i], c) then TopClause(options[i], args[i], c) else before[c]
    requires || (c in after && final[c] == after[c] &&
                 forall j :: i + 1 <= j < Limit(options, args) ==> !WritesTop(options[j], args[j], c))
             || exists j :: i + 1 <= j && LastTopWriter(options, args, j, c) && final[c] == TopClause(options[j], args[j], c)
    ensures || (c in before && final[c] == before[c] &&
                forall j :: i <= j < Limit(options, args) ==> !WritesTop(options[j], args[j], c))
            || exists j :: i <= j && LastTopWriter(options, args, j, c) && final[c] == TopClause(options[j], args[j], c)
  {
    if c in after && final[c] == after[c] &&
       forall j :: i + 1 <= j < Limit(options, args) ==> !WritesTop(options[j], args[j], c) {
      if WritesTop(options[i], args[i], c) {
        assert LastTopWriter(options, args, i, c);
      }
    }
  }

  /** What the LIST loop from index `i` builds: a `null` argument to a
      visited list-valued search throws; otherwise every key a visited
      option writes is present, holding the clause of the LAST visited
      option that writes it (a later option overwrites an earlier one), and
      every other key keeps what it had. */
  lemma BuildFromSpec(options: Options, args: seq<Value>, i: nat, ops: FindOptions)
    requires i <= Limit(options, args)
    ensures var r := BuildFrom(options, args, i, ops);
            && (r.Failure? <==> exists j :: i <= j < Limit(options, args) && NullFault(options[j], args[j]))
            && (r.Failure? ==> r.error == NullArgument)
            && (r.Success? ==> r.value.skip == ops.skip && r.value.take == ops.take)
            && (r.Success? ==> forall c :: c in r.value.where <==>
                c in ops.where || exists j :: i <= j < Limit(options, args) && WritesWhere(options[j], c))
            && (r.Success? ==> forall c :: c in r.value.where ==>
                || (c in ops.where && r.value.where[c] == ops.where[c] &&
                    forall j :: i <= j < Limit(options, args) ==> !WritesWhere(options[j], c))
                || exists j :: i <= j && LastWhereWriter(options, args, j, c) && r.value.where[c] == Like(args[j]))
            && (r.Success? ==> forall c :: c in r.value.top <==>
                c in ops.top || exists j :: i <= j < Limit(options, args) && WritesTop(options[j], args[j], c))
            && (r.Success? ==> forall c :: c in r.value.top ==>
                || (c in ops.top && r.value.top[c] == ops.top[c] &&
                    forall j :: i <= j < Limit(options, args) ==> !WritesTop(options[j], args[j], c))
                || exists j :: i <= j && LastTopWriter(options, args, j, c) && r.value.top[c] == TopClause(options[j], args[j], c))
  {
    BuildFromOutcome(options, args, i, ops);
    BuildFromWhereKeys(options, args, i, ops);
    BuildFromWhere(options, args, i, ops);
    BuildFromTopKeys(options, args, i, ops);
    BuildFromTop(options, args, i, ops);
  }

  /** The options LIST passes to `find`: `skip` 0 and `take` PageSize, the
      visited single-column searches' conditions under `where`, and the
      cursor and list-valued search clauses at the top level, each key
      holding the clause of the last visited option that writes it. */
  function BuildListOptions(options: Options, args: seq<Value>): (r: Result<FindOptions, ApiError>)
    ensures r.Failure? <==> exists j :: 0 <= j < Limit(options, args) && NullFault(options[j], args[j])
    ensures r.Success? ==> r.value.skip == 0 && r.value.take == PageSize
    ensures r.Success? ==> forall c :: c in r.value.where <==>
              exists j :: 0 <= j < Limit(options, args) && WritesWhere(options[j], c)
    ensures r.Success? ==> forall c :: c in r.value.where ==>
              exists j :: 0 <= j && LastWhereWriter(options, args, j, c) && r.value.where[c] == Like(args[j])
    ensures r.Success? ==> forall c :: c in r.value.top <==>
              exists j :: 0 <= j < Limit(options, args) && WritesTop(options[j], args[j], c)
    ensures r.Success? ==> forall c :: c in r.value.top ==>
              exists j :: 0 <= j && LastTopWriter(options, args, j, c) && r.value.top[c] == TopClause(options[j], args[j], c)
  {
    BuildFromSpec(options, args, 0, FindOptions(map[], map[], 0, PageSize));
    BuildFrom(options, args, 0, FindOptions(map[], map[], 0, PageSize))
  }

  /** `{paginated: "title", search: ["title"]}` with arguments `5` and
      `"x"`: the search, visited second, overwrites the cursor clause. */
  lemma LaterOptionOverwrites()
    ensures var r := BuildListOptions([PaginatedOption(Cursor("title")), SearchOption(Columns(["title"]))], [Num(5), Str("x")]);
            r.Success? && r.value.top == map["title" := Like(Str("x"))] && r.value.where == map[]
  {
    var options := [PaginatedOption(Cursor("title")), SearchOption(Columns(["title"]))];
    var args := [Num(5), Str("x")];
    var ops0 := FindOptions(map[], map[], 0, PageSize);
    var ops1 := ops0.(top := map["title" := MoreThan(Num(5))]);
    assert ApplyOption(options[0], args[0], ops0) == Success(ops1);
    assert SearchColumns(ops1.top, ["title"], Str("x")) == map["title" := Like(Str("x"))];
  }

  /** The column GET matches its argument against: a non-empty
      `primaryField`, else `id`. */
  function KeyField(options: Options): (f: string)
    ensures f != ""
    ensures f == IdField || exists i :: 0 <= i < |options| && options[i] == PrimaryFieldOption(f)
    ensures forall i :: 0 <= i < |options| && options[i].PrimaryFieldOption? &&
                        (forall j :: 0 <= j < i ==> !options[j].PrimaryFieldOption?) ==>
              f == if options[i].primaryField != "" then options[i].primaryField else IdField
    ensures (forall i :: 0 <= i < |options| ==> !options[i].PrimaryFieldOption?) ==> f == IdField
  {
    if |options| == 0 then IdField
    else if options[0].PrimaryFieldOption? then
      (if options[0].primaryField != "" then options[0].primaryField else IdField)
    else
      var f := KeyField(options[1..]);
      assert forall i :: 1 <= i < |options| ==> options[i] == options[1..][i - 1];
      f
  }

  /** `cl.create(args[0])`: the fields of an object argument. */
  function AsRecord(v: Value): Record {
    if v.Obj? then v.fields else map[]
  }

  /** `Object.assign(item, payload)`: the payload's fields overwrite the
      item's, the item's other fields stay. */
  function Merge(item: Record, payload: Value): (r: Record)
    ensures forall f :: f in r <==> f in item || (payload.Obj? && f in payload.fields)
    ensures forall f :: Field(r, f) == if payload.Obj? && f in payload.fields then payload.fields[f] else Field(item, f)
  {
    if payload.Obj? then item + payload.fields else item
  }

  /** The decorated resolver. `wrapped` is the original method; the call
      runs it first and returns its value when that is neither `null` nor
      `undefined`. Otherwise the operation of `kind` runs on `t`, with
      `generated` as the identifier the hook would generate on an insert. */
  function Synthesize(kind: Kind, cls: EntityClass, options: Options, wrapped: seq<Value> -> Value,
                      args: seq<Value>, t: Table, generated: string): (out: Outcome)
    ensures !Nullish(wrapped(args)) ==> out == Outcome(Success(Verbatim(wrapped(args))), t)
    ensures Valid(t) ==> Valid(out.table)
    ensures out.result.Failure? ==> out.table == t
    ensures kind == List || kind == Get ==> out.table == t
    ensures Nullish(wrapped(args)) && out.result.Success? ==>
              match kind
              case List => out.result.value.Page?
              case Delete => out.result.value.Removed?
              case _ => out.result.value.Entity?
  {
    var own := wrapped(args);
    if !Nullish(own) then Outcome(Success(Verbatim(own)), t)
    else
      var id := Arg(args, 0);
      match kind
      case List =>
        (match BuildListOptions(options, args)
         case Success(ops) => Outcome(Success(Page(ops)), t)
         case Failure(e) => Outcome(Failure(e), t))
      case Get =>
        (match FindOne(t, KeyField(options), id)
         case None => Outcome(Failure(NotFound(cls.name, id)), t)
         case Some(row) => Outcome(Success(Entity(row)), t))
      case Create =>
        (match Save(t, AsRecord(id), cls, generated)
         case Success((t', row)) => Outcome(Success(Entity(row)), t')
         case Failure(e) => Outcome(Failure(Rejected(e)), t))
      case Delete =>
        (match IndexOf(t, IdField, id)
         case None => Outcome(Failure(NotFound(cls.name, id)), t)
         case Some(k) => Outcome(Success(Removed), Remove(t, k)))
      case Update =>
        (match IndexOf(t, IdField, id)
         case None => Outcome(Failure(NotFound(cls.name, id)), t)
         case Some(k) =>
           match Save(t, Merge(t[k], Arg(args, 1)), cls, generated)
           case Success((t', row)) => Outcome(Success(Entity(row)), t')
           case Failure(e) => Outcome(Failure(Rejected(e)), t))
  }

  /** Options past the last argument are never visited: LIST builds the
      same query without them. */
  lemma {:induction false} BuildFromPastArgs(options: Options, args: seq<Value>, i: nat, ops: FindOptions)
    requires i <= Limit(options, args)
    ensures Limit(options[..Limit(options, args)], args) == Limit(options, args)
    ensures BuildFrom(options, args, i, ops) == BuildFrom(options[..Limit(options, args)], args, i, ops)
    decreases Limit(options, args) - i
  {
    var n := Limit(options, args);
    var o' := options[..n];
    assert Limit(o', args) == n;
    if i < n {
      assert o'[i] == options[i];
      var step := ApplyOption(options[i], args[i], ops);
      if step.Success? {
        BuildFromPastArgs(options, args, i + 1, step.value);
        assert BuildFrom(o', args, i, ops) == BuildFrom(o', args, i + 1, step.value);
      }
    }
  }

  lemma ListIgnoresOptionsPastArgs(options: Options, args: seq<Value>)
    ensures BuildListOptions(options, args) == BuildListOptions(options[..Limit(options, args)], args)
  {
    BuildFromPastArgs(options, args, 0, FindOptions(map[], map[], 0, PageSize));
  }

  /** Past a removed position `i`, the loop over the shortened lists is the
      loop over the full lists one index later. */
  lemma {:induction false} BuildFromShifted(options: Options, args: seq<Value>, i: nat, j: nat, ops: FindOptions)
    requires i < |options| && i < |args| && i < j <= Limit(options, args)
    ensures Limit(options[..i] + options[i + 1..], args[..i] + args[i + 1..]) == Limit(options, args) - 1
    ensures BuildFrom(options, args, j, ops) == BuildFrom(options[..i] + options[i + 1..], args[..i] + args[i + 1..], j - 1, ops)
    decreases Limit(options, args) - j
  {
    var o' := options[..i] + options[i + 1..];
    var a' := args[..i] + args[i + 1..];
    if j < Limit(options, args) {
      assert o'[j - 1] == options[j] && a'[j - 1] == args[j];
      match ApplyOption(options[j], args[j], ops)
      case Failure(_) =>
      case Success(ops') => BuildFromShifted(options, args, i, j + 1, ops');
    }
  }

  lemma {:induction false} BuildFromWithoutPrimaryField(options: Options, args: seq<Value>, i: nat, j: nat, ops: FindOptions)
    requires i < |options| && i < |args| && options[i].PrimaryFieldOption? && j <= i
    ensures BuildFrom(options, args, j, ops) == BuildFrom(options[..i] + options[i + 1..], args[..i] + args[i + 1..], j, ops)
    decreases i - j
  {
    var o' := options[..i] + options[i + 1..];
    var a' := args[..i] + args[i + 1..];
    BuildFromShifted(options, args, i, i + 1, ops);
    if j < i {
      assert o'[j] == options[j] && a'[j] == args[j];
      match ApplyOption(options[j], args[j], ops)
      case Failure(_) =>
      case Success(ops') => BuildFromWithoutPrimaryField(options, args, i, j + 1, ops');
    }
  }

  /** A `primaryField` key takes its argument position and adds nothing:
      dropping the key and its argument gives the same query. */
  lemma PrimaryFieldOnlyConsumesArgument(options: Options, args: seq<Value>, i: nat)
    requires i < |options| && i < |args| && options[i].PrimaryFieldOption?
    ensures BuildListOptions(options, args) == BuildListOptions(options[..i] + options[i + 1..], args[..i] + args[i + 1..])
  {
    BuildFromWithoutPrimaryField(options, args, i, 0, FindOptions(map[], map[], 0, PageSize));
  }

  /** The clause of the only option that writes a top-level key is the one
      the query carries: `MoreThan(args[i])` for a cursor column, `Like` of
      the term for a list-valued search. */
  lemma SoleTopWriter(options: Options, args: seq<Value>, i: nat, c: string)
    requires i < Limit(options, args) && WritesTop(options[i], args[i], c)
    requires forall j :: 0 <= j < Limit(options, args) && j != i ==> !WritesTop(options[j], args[j], c)
    ensures BuildListOptions(options, args).Success? ==>
              c in BuildListOptions(options, args).value.top &&
              BuildListOptions(options, args).value.top[c] == TopClause(options[i], args[i], c)
  {
  }

  /** A single-column search always assigns `where[column]`, with no
      truthiness test on its argument. */
  lemma SoleWhereWriter(options: Options, args: seq<Value>, i: nat, c: string)
    requires i < Limit(options, args) && options[i] == SearchOption(Column(c))
    requires forall j :: 0 <= j < Limit(options, args) && j != i ==> options[j] != SearchOption(Column(c))
    ensures BuildListOptions(options, args).Success? ==>
              c in BuildListOptions(options, args).value.where &&
              BuildListOptions(options, args).value.where[c] == Like(args[i])
  {
  }

  /** `paginated` and list-valued `search` clauses go to the top level of
      the options: without a single-column search, `where` stays empty. */
  lemma WhereOnlyFromSingleColumnSearch(options: Options, args: seq<Value>)
    requires forall j :: 0 <= j < |options| ==> !(options[j].SearchOption? && options[j].search.Column?)
    ensures BuildListOptions(options, args).Success? ==> BuildListOptions(options, args).value.where == map[]
  {
  }

  /** GET returns a stored row whose key column equals the first argument,
      and throws `NotFound` exactly when no row matches. */
  lemma GetReturnsStoredRow(cls: EntityClass, options: Options, wrapped: seq<Value> -> Value,
                            args: seq<Value>, t: Table, generated: string)
    requires Nullish(wrapped(args))
    ensures var out := Synthesize(Get, cls, options, wrapped, args, t, generated);
            && out.table == t
            && (out.result.Failure? <==> forall k :: 0 <= k < |t| ==> !Matches(t[k], KeyField(options), Arg(args, 0)))
            && (out.result.Failure? ==> out.result.error == NotFound(cls.name, Arg(args, 0)))
            && (out.result.Success? ==> out.result.value.row in t && Matches(out.result.value.row, KeyField(options), Arg(args, 0)))
  {
  }

  /** UPDATE and DELETE go by `id` whatever `primaryField` says; an id no
      row holds throws `NotFound` and leaves the table as it was. */
  lemma MissingIdNotFound(kind: Kind, cls: EntityClass, options: Options, wrapped: seq<Value> -> Value,
                          args: seq<Value>, t: Table, generated: string)
    requires kind == Update || kind == Delete
    requires Nullish(wrapped(args))
    requires forall k :: 0 <= k < |t| ==> !Matches(t[k], IdField, Arg(args, 0))
    ensures Synthesize(kind, cls, options, wrapped, args, t, generated) == Outcome(Failure(NotFound(cls.name, Arg(args, 0))), t)
  {
  }

  /** UPDATE of a stored row overwrites the fields the second argument
      supplies, keeps the others, and saves the result in the row's place. */
  lemma UpdateMergesPayload(cls: EntityClass, options: Options, wrapped: seq<Value> -> Value,
                            args: seq<Value>, t: Table, generated: string, k: nat)
    requires Valid(t) && Nullish(wrapped(args))
    requires k < |t| && Matches(t[k], IdField, Arg(args, 0))
    requires Arg(args, 1).Obj? && IdField in Arg(args, 1).fields ==> Arg(args, 1).fields[IdField] == t[k][IdField]
    ensures var merged := Merge(t[k], Arg(args, 1));
            && Synthesize(Update, cls, options, wrapped, args, t, generated) == Outcome(Success(Entity(merged)), t[k := merged])
            && forall f :: Field(merged, f) == if Arg(args, 1).Obj? && f in Arg(args, 1).fields then Arg(args, 1).fields[f] else Field(t[k], f)
  {
    IndexOfStoredId(t, k);
    var merged := Merge(t[k], Arg(args, 1));
    assert Field(merged, IdField) == t[k][IdField];
  }

  /** DELETE of a stored row removes that row and no other, and returns
      `true`. */
  lemma DeleteRemovesExactlyOne(cls: EntityClass, options: Options, wrapped: seq<Value> -> Value,
                                args: seq<Value>, t: Table, generated: string, k: nat)
    requires Valid(t) && Nullish(wrapped(args))
    requires k < |t| && Matches(t[k], IdField, Arg(args, 0))
    ensures var out := Synthesize(Delete, cls, options, wrapped, args, t, generated);
            && out.result == Success(Removed)
            && |out.table| == |t| - 1
            && (forall j :: 0 <= j < |t| && j != k ==> t[j] in out.table)
            && (forall row :: row in out.table ==> row in t && !Matches(row, IdField, Arg(args, 0)))
  {
    IndexOfStoredId(t, k);
  }

  /** CREATE of an entity without an identifier, on a class with a UUID
      primary key, stores and returns it with the generated identifier
      when that identifier is new to the table. */
  lemma CreateAssignsGeneratedId(cls: EntityClass, options: Options, wrapped: seq<Value> -> Value,
                                 args: seq<Value>, t: Table, generated: string)
    requires Valid(t) && Nullish(wrapped(args)) && cls.uuidPrimary
    requires !Truthy(Field(AsRecord(Arg(args, 0)), IdField))
    requires forall k :: 0 <= k < |t| ==> !Matches(t[k], IdField, Field(AsRecord(Arg(args, 0)), IdField))
    requires forall k :: 0 <= k < |t| ==> t[k][IdField] != Str(generated)
    ensures var row := AsRecord(Arg(args, 0))[IdField := Str(generated)];
            Synthesize(Create, cls, options, wrapped, args, t, generated) == Outcome(Success(Entity(row)), t + [row])
  {
    var rec := AsRecord(Arg(args, 0));
    assert IndexOf(t, IdField, Field(rec, IdField)).None?;
    assert IndexOf(t, IdField, Str(generated)).None?;
  }

  /** CREATE keeps an identifier the entity already has: a new one is
      appended as given, and a stored one has its row overwritten. */
  lemma CreateKeepsPresetId(cls: EntityClass, options: Options, wrapped: seq<Value> -> Value,
                            args: seq<Value>, t: Table, generated: string)
    requires Nullish(wrapped(args))
    requires Truthy(Field(AsRecord(Arg(args, 0)), IdField))
    ensures var rec := AsRecord(Arg(args, 0));
            var out := Synthesize(Create, cls, options, wrapped, args, t, generated);
            && out.result == Success(Entity(rec))
            && ((forall k :: 0 <= k < |t| ==> !Matches(t[k], IdField, Field(rec, IdField))) ==> out.table == t + [rec])
            && (Valid(t) ==> forall k :: 0 <= k < |t| && Matches(t[k], IdField, Field(rec, IdField)) ==> out.table == t[k := rec])
  {
    var rec := AsRecord(Arg(args, 0));
    forall k | 0 <= k < |t| && Valid(t) && Matches(t[k], IdField, Field(rec, IdField))
      ensures IndexOf(t, IdField, Field(rec, IdField)) == Some(k)
    {
      IndexOfStoredId(t, k);
    }
    if IndexOf(t, IdField, Field(rec, IdField)).None? {
      assert SetupUUID(rec, IdField, generated) == rec;
    }
  }
}

=== FILE: user.dfy ===
/** The `User` entity's role resolution and role checks. */
module UserEntity {
  import opened Grants

  /** A user row. The name and team columns take no part in role checks
      and are not modelled. */
  datatype User = User(id: string, email: string, roles: seq<string>)

  /** `calculateRoles`: returns the stored roles followed by every default
      role of the registry they lack. The method pushes onto the array it
      read from `this.roles`, so the user's stored roles become the result;
      the first component is the user after the call. */
  function CalculateRoles(u: User, roles: Registry): (out: (User, seq<string>))
    ensures out.0 == u.(roles := out.1)
    ensures |u.roles| <= |out.1| && out.1[..|u.roles|] == u.roles
    ensures forall k :: |u.roles| <= k < |out.1| ==> out.1[k] in DefaultIds(roles) && out.1[k] !in out.1[..k]
    ensures forall i :: 0 <= i < |roles| && roles[i].isDefault ==> roles[i].id in out.1
    ensures forall x :: x in out.1 <==> x in u.roles || x in DefaultIds(roles)
    ensures |out.1| <= |u.roles| + |DefaultIds(roles)|
  {
    var r := Effective(u.roles, roles);
    ExtendDefaults(u.roles, roles);
    (u.(roles := r), r)
  }

  /** Calling `calculateRoles` a second time returns the same list and
      leaves the user as the first call left it. */
  lemma CalculateRolesIdempotent(u: User, roles: Registry)
    ensures CalculateRoles(CalculateRoles(u, roles).0, roles) == CalculateRoles(u, roles)
  {
    EffectiveIdempotent(u.roles, roles);
  }

  /** A user with no stored roles holds exactly the default roles, in
      registry order. */
  lemma CalculateRolesOfNewUser(u: User, roles: Registry)
    requires UniqueIds(roles) && u.roles == []
    ensures CalculateRoles(u, roles).1 == DefaultIds(roles)
  {
    EffectiveOfNothing(roles);
  }

  /** `hasRole`: membership in the resolved roles, i.e. the role is stored
      on the user or is a default role. */
  function HasRole(u: User, roles: Registry, role: string): (ok: bool)
    ensures ok <==> role in u.roles || role in DefaultIds(roles)
    ensures (exists i :: 0 <= i < |roles| && roles[i].isDefault && roles[i].id == role) ==> ok
  {
    role in CalculateRoles(u, roles).1
  }

  /** `hasRoles(rs, and)`: the nested loop over the resolved roles and
      `rs`. In OR mode it holds iff some role of `rs` is held; in AND mode
      iff the number of matching (held, required) pairs is `|rs|`, which is
      containment whenever the stored roles are duplicate-free. */
  method HasRoles(u: User, roles: Registry, rs: seq<string>, and: bool) returns (ok: bool)
    ensures and ==> (ok <==> PairCount(CalculateRoles(u, roles).1, rs) == |rs|)
    ensures !and ==> (ok <==> exists k :: 0 <= k < |rs| && (rs[k] in u.roles || rs[k] in DefaultIds(roles)))
    ensures |rs| == 0 ==> (ok <==> and)
    ensures and && NoDuplicates(u.roles) ==>
              (ok <==> forall k :: 0 <= k < |rs| ==> rs[k] in u.roles || rs[k] in DefaultIds(roles))
  {
    var held := CalculateRoles(u, roles).1;
    ok := MatchGrants(held, rs, and);
    PairCountOfNothing(held);
    if NoDuplicates(u.roles) {
      EffectiveNoDuplicates(u.roles, roles);
      AllModeIsContainment(held, rs);
    }
  }
}

=== FILE: uuid.dfy ===
/** The `setupUUID` insert hook that `PrimaryUUIDColumn` attaches to an
    entity class: an identifier field that is still unset (falsy) receives
    a freshly generated identifier; a set one is left alone. The identifier
    generator is not part of this model: its value is the `generated`
    parameter. */
module UuidHook {
  import opened Values

  /** The hook applied to the entity being inserted. */
  function SetupUUID(rec: Record, field: string, generated: string): (r: Record)
    ensures Truthy(Field(rec, field)) ==> r == rec
    ensures !Truthy(Field(rec, field)) ==> Field(r, field) == Str(generated)
    ensures forall k :: k != field ==> Field(r, k) == Field(rec, k)
    ensures r.Keys == rec.Keys + (if Truthy(Field(rec, field)) then {} else {field})
  {
    if Truthy(Field(rec, field)) then rec else rec[field := Str(generated)]
  }

  /** With a non-empty generated identifier the field is set afterwards,
      so a second run of the hook changes nothing, whatever it would
      generate. */
  lemma SetupUUIDIdempotent(rec: Record, field: string, generated: string, generated': string)
    requires generated != ""
    ensures Truthy(Field(SetupUUID(rec, field, generated), field))
    ensures SetupUUID(SetupUUID(rec, field, generated), field, generated') == SetupUUID(rec, field, generated)
  {
  }

  /** Two entities inserted without identifiers receive the two generated
      identifiers, which differ when the generator's values differ. */
  lemma PerInstanceIdsDiffer(a: Record, b: Record, gen1: string, gen2: string)
    requires !Truthy(Field(a, "id")) && !Truthy(Field(b, "id"))
    requires gen1 != gen2
    ensures Field(SetupUUID(a, "id", gen1), "id") == Str(gen1)
    ensures Field(SetupUUID(b, "id", gen2), "id") == Str(gen2)
    ensures Field(SetupUUID(a, "id", gen1), "id") != Field(SetupUUID(b, "id", gen2), "id")
  {
  }

  /** An entity instance: its own fields, with reads of a field it does not
      own falling through to the class prototype. */
  datatype Instance = Instance(own: Record, proto: Record)

  /** Property read `x[k]` through the prototype chain. */
  function Read(x: Instance, k: string): (v: Value)
    ensures k in x.own ==> v == x.own[k]
    ensures k !in x.own ==> v == Field(x.proto, k)
  {
    if k in x.own then x.own[k] else Field(x.proto, k)
  }

  /** The hook as the decorator installs it: an arrow function closing over
      the decorator's target, which is the class prototype, so it tests and
      assigns the prototype's field and never the instance being inserted. */
  function SetupUUIDAsWritten(x: Instance, field: string, generated: string): (y: Instance)
    ensures y.own == x.own
    ensures Truthy(Field(x.proto, field)) ==> y == x
    ensures !Truthy(Field(x.proto, field)) ==> Field(y.proto, field) == Str(generated)
  {
    x.(proto := SetupUUID(x.proto, field, generated))
  }

  /** Two instances inserted one after the other without own identifiers:
      the first insert stores its generated identifier on the shared
      prototype, the second finds it set and generates nothing, and both
      instances read the first identifier. */
  lemma AsWrittenInstancesShareId(proto: Record, gen1: string, gen2: string)
    requires !Truthy(Field(proto, "id")) && gen1 != "" && gen1 != gen2
    ensures var first := SetupUUIDAsWritten(Instance(map[], proto), "id", gen1);
            var second := SetupUUIDAsWritten(Instance(map[], first.proto), "id", gen2);
            Read(first, "id") == Read(second, "id") == Str(gen1)
  {
  }
}

=== FILE: values.dfy ===
/** JavaScript values as the generic CRUD layer handles them: positional
    arguments, record fields and wrapped-method results. */
module Values {

  /** A JavaScript value. Numbers are modelled as integers; arrays and
      functions do not occur as arguments in the modelled paths. */
  datatype Value =
    | Undefined
    | Null
    | Bool(b: bool)
    | Num(n: int)
    | Str(s: string)
    | Obj(fields: map<string, Value>)

  /** An entity or plain object as its own enumerable fields. */
  type Record = map<string, Value>

  /** `v == null` under loose equality: holds for `null` and `undefined` only. */
  predicate Nullish(v: Value) {
    v.Undefined? || v.Null?
  }

  /** JavaScript truthiness (`if (v)`). */
  predicate Truthy(v: Value) {
    match v
    case Undefined => false
    case Null => false
    case Bool(b) => b
    case Num(n) => n != 0
    case Str(s) => s != ""
    case Obj(_) => true
  }

  /** Property read `o[k]` on an object with the given own fields. */
  function Field(fields: map<string, Value>, k: string): (v: Value)
    ensures k !in fields ==> v == Undefined
  {
    if k in fields then fields[k] else Undefined
  }

  /** Positional argument `args[i]`, `undefined` past the end. */
  function Arg(args: seq<Value>, i: nat): (v: Value)
    ensures i >= |args| ==> v == Undefined
  {
    if i < |args| then args[i] else Undefined
  }
}
